=== FILE: README.md ===
# Camera + GPS web app: a verified model of its decision logic

The app is a small progressive web page. The user opens the rear camera, takes a
photo, and sees it in a modal together with the device's coordinates and a
Google Maps link. A service worker caches the app shell so that the page loads
offline.

This Dafny project models the three pieces of that code that make decisions.
Every browser API is an injected outcome. The browser calls the contracts speak
about are recorded, in order, in an effect log: the camera request, track stops,
display switches, the frame grab, the position query, alerts, the modal, cache
deletions, `skipWaiting`, `clients.claim` and the fetch handler's network
fetches. `video.srcObject` is the `preview` field of the page state, not an
effect. Cache Storage reads (`caches.open`, `caches.keys`, `caches.match`) and
the fetches `addAll` makes during install are not logged.

- **Camera session** (`CameraSession`, `app_types.dfy`, `camera_session.dfy`). The
  page state is one record. It holds the `stream` slot, the video preview's
  `srcObject`, the camera-container and take-photo-button display flags, and
  the photo modal. `OpenCamera` takes the `getUserMedia` outcome as a parameter.
  `CloseCamera` is the cleanup that every exit path runs.
- **Capture** (`Location`, `Capture`, `location.dfy`, `capture.dfy`).
  - `GetLocation` takes the device's geolocation capability and position outcome
    as a parameter.
  - `CapturePhotoWithLocation` orders the frame grab, the location query, the
    camera close and the single report (modal or alert).
  - The alert text is chosen from the error code. The map link is built from
    the raw coordinates.
- **Service worker** (`CacheStorage`, `ServiceWorker`, `FetchRouting`,
  `cache_storage.dfy`, `service_worker.dfy`, `fetch_routing.dfy`).
  - Cache Storage is an ordered list of uniquely named caches.
  - Install stores the 7-URL manifest in one all-or-nothing `addAll`.
  - Activate deletes every generation except `pwa-camera-gps-v1` and then
    claims the clients.
  - A request whose origin names localhost or 127.0.0.1 is served cache-first,
    then from the network, then with a synthesised 503. For any other request the
    handler throws and the browser fetches the request itself.
  - The "external origin" guard is modelled as written, using JavaScript's
    strict equality and the `ReferenceError` an undeclared `window` raises. It
    is proved never to hold. A corrected handler sits alongside it.

Injected parameters: the `getUserMedia` outcome, or its absence (`MediaOutcome`), the geolocation
capability and its result (`Geolocation`), the captured frame (`Frame`, opaque), the
two number renderings `String(n)` and `n.toFixed(6)` (`Renderer`), the network
(`Network`, URL to `Delivered(response)` or `NetworkError`) and
the global scope's binding of `window` (`WindowBinding`; a service worker's is
`WORKER_WINDOW`, which declares no `window`).

## Behaviour of the code worth knowing

- **External requests.** The comments at sw.js:57-59 and sw.js:64 say that
  external URLs (Google Maps, APIs) may use the network. The guard at
  sw.js:65-67 never lets one through:
  - The guard tests each request's own origin, not the page's. `&&` stops at
    the first false operand, so for a request whose origin names `localhost` or
    `127.0.0.1` the guard is false and the request is served cache-first.
  - For any other request the last operand reads `window`. A service worker's global scope
    does not declare `window`, and `?.` does not protect an undeclared name, so
    the handler throws a `ReferenceError` before `respondWith`. The browser then
    fetches the request itself: no cache, and no 503 fallback.
  - Even with a `window`, `!url.hostname === window?.location?.hostname`
    compares a boolean with a string or `undefined` using `===`, which is false.
  - The pass-through at sw.js:68 is therefore dead code.
    `FetchRouting.PassThroughGuard` proves the guard never holds, and
    `FetchRouting.HandleFetch` states which branch answers each request.
  - On a deployed origin the cached app shell is never served, so the page does
    not load offline (see "## Findings").
- **Failed install.** `caches.open(CACHE_NAME)` runs before `addAll` (sw.js:19-22),
  so the cache named `pwa-camera-gps-v1` exists after a failure too. It holds its
  earlier contents, or nothing if it was just created. `ServiceWorker.Install`
  states this.
- **Second open.** `openCamera` assigns the new stream over the old one
  (js/app.js:24-32) and never stops the old stream's tracks
  (`CameraSession.OpenOverLiveStreamDropsIt`).
- **"Unsupported" error.** When geolocation is missing, `getLocation` rejects with
  a plain `Error` that has no `code` (js/app.js:59-60). It gets the generic alert:
  the prefix followed by "Geolocalización no soportada".
- **Closing with no stream.** `closeCamera` clears `video.srcObject` only when a
  stream is held. The preview is therefore detached after a close only in states
  where the preview already matched the stream. The `Consistent` invariant says
  exactly this, and it is proved for every reachable state (`Capture.Run`).

## Model

| member | source | states |
|---|---|---|
| CameraSession.CloseCamera | js/app.js:46-54 | From any state: the stream slot is emptied, the container hidden and the button shown. Exactly the held stream's tracks are stopped, in order, or none if no stream was held. The preview is detached when a stream was held. The modal is untouched, and nothing is reported. |
| CameraSession.StopEffectsStopsAll | js/app.js:48 | `getTracks().forEach(t => t.stop())` stops exactly the stream's tracks, each once, in order |
| CameraSession.CloseCameraIdempotent | js/app.js:46-54 | A second close leaves the same state and stops no track |
| CameraSession.OpenCamera | js/app.js:21-43 | Asks for the rear camera at an ideal 1280x720 if and only if `navigator.mediaDevices` exists; without it the only effect is the camera alert. On success it binds the stream to the slot and the preview, shows the container and hides the button. On failure the state is unchanged and the only report is the camera alert. It never stops a track and keeps the page consistent. |
| CameraSession.OpenThenCloseRestores | js/app.js:21-54 | Open then close on a closed page returns the page exactly as it was, after stopping exactly the acquired stream's tracks |
| CameraSession.OpenOverLiveStreamDropsIt | js/app.js:18-32 | Opening while a stream is held replaces it and stops none of its tracks |
| Location.GetLocation | js/app.js:57-82 | If geolocation is missing, rejects with the code-less "Geolocalización no soportada" error and makes no query. Otherwise it makes exactly one query with high accuracy, a 10000 ms timeout and maximumAge 0. It resolves to exactly the fix's latitude and longitude, or rejects with the position error's code and message. |
| Location.Classify | js/app.js:112-120 | Code 1 gives permission denied, 2 position unavailable, 3 timeout, each if and only if. Any other code, or none, gives the generic class carrying the error's message. |
| Location.AlertTextRoundTrip | js/app.js:112-120 | Every alert text reads back to the class that produced it |
| Location.AlertTextInjective | js/app.js:112-120 | Two classes get the same alert text if and only if they are the same class |
| Location.AlertForByCode | js/app.js:112-120 | The alert is a total function of the code: the three fixed texts for codes 1, 2 and 3 whatever the message; otherwise the generic prefix followed by `error.message` |
| Location.PositionFailureAlert | js/app.js:71-120 | A position error's code decides the alert: each fixed text appears if and only if its code (1, 2 or 3) was reported, and any other code reads back as the generic alert carrying the device's message |
| Location.UnsupportedAlert | js/app.js:59-120 | Missing geolocation reads back as the generic alert carrying "Geolocalización no soportada" |
| Capture.MapsUrlRoundTrip | js/app.js:136 | The map link is `https://www.google.com/maps?q=` followed by the raw latitude, a comma and the raw longitude. Parsing it gives back both raw renderings. |
| Capture.ShowPhotoModal | js/app.js:127-141 | The modal shows the frame and both coordinates rendered by `toFixed(6)`. Its link decodes to the raw, unrounded renderings. |
| Capture.CapturePhotoWithLocation | js/app.js:85-124 | The frame grab is the first effect, and no other frame is grabbed. The camera always ends closed, with exactly the held stream's tracks stopped. There is exactly one report. On a fix, the modal built from this frame and this fix is shown after all cleanup. On a rejection, the code's alert comes before all cleanup and the modal is unchanged. |
| Capture.CaptureQueriesAfterGrab | js/app.js:85-99 | Each capture's frame grab is followed directly by exactly `getLocation`'s effects. So a fresh position query, with high accuracy, a 10000 ms timeout and maximumAge 0, is made after the grab if and only if geolocation exists. |
| Capture.Run | js/app.js:18-124 | Any sequence of opens, captures and closes keeps the page consistent. A sequence ending in a capture or a close leaves the camera closed. |
| Capture.ReachableIsConsistent | js/app.js:18-124 | Every state reachable from the loaded page is consistent |
| CacheStorage.Open | sw.js:19 | `caches.open` keeps names unique. It returns the existing cache or a new empty one, and leaves every other name unchanged. |
| CacheStorage.Delete | sw.js:45 | `caches.delete` removes exactly the named cache, keeps names unique and leaves the other caches unchanged |
| CacheStorage.Match | sw.js:74 | `caches.match` finds a response if and only if some cache stores the URL. What it returns is the response stored for that URL in the first cache, in order, that stores it. |
| ServiceWorker.FetchAll | sw.js:22 | `addAll` fetches succeed if and only if every URL is delivered with a 2xx status other than 206. The result then maps exactly the requested URLs to their responses. |
| ServiceWorker.Install | sw.js:4-32 | The cache `pwa-camera-gps-v1` exists afterwards and other caches are unchanged. `skipWaiting` is called if and only if all 7 manifest URLs are storable (delivered with a 2xx status other than 206). Then the cache holds every one of them with its fetched response and keeps its other entries. Otherwise the error is logged and the cache keeps its earlier contents. |
| ServiceWorker.StaleNames | sw.js:42-47 | The names activate deletes are exactly the listed names other than `pwa-camera-gps-v1` |
| ServiceWorker.Activate | sw.js:35-55 | Deletes exactly the names other than the current one. Afterwards only the current name can remain, with its contents intact (at most one cache when names were unique). Claiming the clients is the last effect, after every deletion. |
| ServiceWorker.ActivateKeepsCurrent | sw.js:42-46 | Activate never deletes the current generation |
| ServiceWorker.ActivateIdempotent | sw.js:39-48 | A second activate deletes nothing, changes nothing and only claims the clients |
| FetchRouting.StrictEqualsMeansSameValue | sw.js:67 | `===` holds if and only if both operands are the same value of the same type |
| FetchRouting.Includes | sw.js:65-66 | `String.prototype.includes` holds if and only if the substring occurs at some index |
| FetchRouting.PassThroughGuard | sw.js:65-67 | The external-origin guard never evaluates to true. It throws if and only if the origin names neither localhost nor 127.0.0.1 and no `window` is declared. |
| FetchRouting.ServeCacheFirst | sw.js:73-88 | Always answers with a response. A cache hit returns the stored response without touching the network. A miss fetches the URL once and returns the network response, or `No disponible` with status 503 when the network fails. |
| FetchRouting.HandleFetch | sw.js:60-89 | The pass-through branch never answers. The browser's own fetch answers if and only if the request's origin is not local and no `window` is declared. It fetches the URL once and hands the page the network's response, or a network error when the network fails. Otherwise the request is served cache-first: a hit returns the stored response without a fetch, and a miss fetches once and returns the network response, or `No disponible` with status 503 when the network fails. |
| FetchRouting.ShellServedOfflineLocally | sw.js:15-88 | For requests whose origin names localhost or 127.0.0.1, after a successful install and then activation, every manifest URL is answered from the cache with the response install stored, without a network fetch |
| FetchRouting.DeployedShellFailsOffline | sw.js:60-70 | On the origin `https://x`, after a successful install and activation, `./index.html` is in the cache, yet with the network down the page gets a network error |
| FetchRouting.HandleFetchIntended | sw.js:57-89 | With the guard the comments describe, a request passes to the network if and only if it is external (non-local origin, another host). It is fetched once and the page gets the network's response or a network error. Everything else is served cache-first: a hit returns the stored response without a fetch, and a miss fetches once and returns the network response, or `No disponible` with status 503 when the network fails. |
| FetchRouting.ShellServedOffline | sw.js:15-88 | With that guard, every manifest URL requested from the worker's own host is answered from the cache, after a successful install and activation, without a network fetch |

## Left out

- DOM element lookup, the click listeners, the modal close handlers and the
  `beforeunload` wiring (js/app.js:1-16, 143-165). This is UI plumbing. The three
  operations they call are modelled, and `Capture.Run` covers every order of them.
- Canvas drawing and JPEG/Base64 encoding (js/app.js:88-93). The image API is
  foreign, so the frame is an opaque input value.
- `String(n)` and `toFixed(6)`, and the floating-point nature of coordinates. The
  renderings are an injected `Renderer` and coordinates are `real`. The round trip
  of the map link assumes only that the latitude's rendering contains no comma,
  which JavaScript number-to-string never produces.
- The range of the coordinates. The code does not check it, so the model does not
  either.
- The real `getUserMedia`, geolocation, Cache Storage and `fetch`. These are
  browser APIs, modelled as injected outcomes. `caches.open` and `caches.delete`
  are taken to succeed.
- Resolution of the manifest's relative URLs against the worker's scope. Cache
  keys and request URLs are compared as given.
- `addAll`'s rejection of duplicate requests. The manifest has none.
- Event-loop interleaving is not modelled. This covers a cancel click while the
  location is pending, `waitUntil`/`respondWith` timing, and the deletions that
  `Promise.all` runs concurrently. Each operation is modelled as one atomic step.
- Capture.CapturePhotoWithLocation: "the camera always ends closed" assumes the
  position query settles. `getCurrentPosition` may never call back while a
  permission prompt is left unanswered, and the camera then stays open. The
  injected `Network` is likewise total, so a fetch that never settles (an
  `addAll` that hangs, a cache miss that waits forever) is not modelled.
- ServiceWorker.FetchAll: `addAll` also rejects a response carrying `Vary: *`.
  Headers are not modelled, so such a response counts as storable here.
- Request methods. `caches.match` and the handler are modelled for GET requests
  only; `caches.match` never matches another method, and the model has no
  request method to tell them apart.
- `console.log`/`console.error` output. Only the chosen alert text and the
  logged-install-failure marker are kept.

## Findings

| source | as written | input that shows it | evidently intended | confidence | as-written member | corrected member |
|---|---|---|---|---|---|---|
| sw.js:65-67 | The guard reads `window`, which a service worker's global scope does not declare. For any request whose origin names neither localhost nor 127.0.0.1 the handler throws before `respondWith`, and the browser fetches the request itself. | A request for `./index.html` from origin `https://x`, after a successful install and activation, with the network down: the page gets a network error, though the cache holds the page. | External hosts go straight to the network and the app shell is served from the cache (comments at sw.js:57-59 and 64). | high; not executed | FetchRouting.DeployedShellFailsOffline | FetchRouting.ShellServedOffline |

=== FILE: app_types.dfy ===
/**
 * The page's observable state and the log of browser side effects that the
 * operations of js/app.js produce.  Browser objects (media streams, the video
 * element, the modal) are values here.  The calls the contracts speak about
 * (camera request, track stops, display switches, frame grab, position query,
 * alerts, modal) are recorded, in order, as Effects; `video.srcObject` is the
 * state's `preview` field rather than an Effect.
 */
module AppTypes {
  import opened Wrappers

  /** Identity of one media track of a camera stream. */
  type TrackId = nat

  /** A media stream returned by `getUserMedia`: the tracks that `getTracks()` lists. */
  datatype Stream = Stream(tracks: seq<TrackId>)

  /** A resolved position: the two numbers `getLocation` hands back. */
  datatype Coordinates = Coordinates(latitude: real, longitude: real)

  /** The still taken from the live preview: canvas size and the JPEG data URL (opaque). */
  datatype Frame = Frame(width: nat, height: nat, dataUrl: string)

  /** What the photo modal shows: the image, the two coordinate texts and the map link. */
  datatype Modal = Modal(image: Frame, latitudeText: string, longitudeText: string, mapsHref: string)

  /** The video constraints passed to `getUserMedia` (camera facing mode and ideal size). */
  datatype MediaConstraints = MediaConstraints(facingMode: string, idealWidth: nat, idealHeight: nat)

  /** The option set passed to `getCurrentPosition`. */
  datatype PositionOptions = PositionOptions(enableHighAccuracy: bool, timeout: nat, maximumAge: nat)

  /**
   * The page state the camera and capture code read and write:
   *  - stream:          the module-level `stream` slot (null is None);
   *  - preview:         `video.srcObject`;
   *  - containerShown:  whether the camera container is displayed;
   *  - takePhotoShown:  whether the take-photo button is displayed;
   *  - modal:           the photo modal's contents once it has been displayed.
   */
  datatype Session = Session(
    stream: Option<Stream>,
    preview: Option<Stream>,
    containerShown: bool,
    takePhotoShown: bool,
    modal: Option<Modal>)

  /** One observable browser interaction. */
  datatype Effect =
    | RequestCamera(constraints: MediaConstraints)
    | StopTrack(track: TrackId)
    | SetDisplay(containerShown: bool, takePhotoShown: bool)
    | Alert(message: string)
    | GrabFrame(frame: Frame)
    | QueryPosition(options: PositionOptions)
    | ShowModal(modal: Modal)

  /** The outcome of one operation: the state it leaves and the effects it performed, in order. */
  datatype Step = Step(state: Session, effects: seq<Effect>)

  /** An effect the user sees as the result of an action: an alert or the photo modal. */
  predicate IsReport(e: Effect) {
    e.Alert? || e.ShowModal?
  }

  /** An effect of closing the camera: stopping a track or switching the display flags. */
  predicate IsCleanup(e: Effect) {
    e.StopTrack? || e.SetDisplay?
  }

  /** The reports of an effect log, in order. */
  function Reports(es: seq<Effect>): (r: seq<Effect>)
    ensures |r| <= |es|
    ensures forall i :: 0 <= i < |r| ==> IsReport(r[i]) && r[i] in es
  {
    if es == [] then []
    else if IsReport(es[0]) then [es[0]] + Reports(es[1..])
    else Reports(es[1..])
  }

  /** The tracks stopped by an effect log, in the order they were stopped. */
  function StoppedTracks(es: seq<Effect>): (r: seq<TrackId>)
    ensures |r| <= |es|
    ensures forall i :: 0 <= i < |r| ==> StopTrack(r[i]) in es
  {
    if es == [] then []
    else if es[0].StopTrack? then [es[0].track] + StoppedTracks(es[1..])
    else StoppedTracks(es[1..])
  }

  /** Reports distribute over concatenation of effect logs. */
  lemma {:induction false} ReportsAppend(a: seq<Effect>, b: seq<Effect>)
    ensures Reports(a + b) == Reports(a) + Reports(b)
  {
    if a != [] {
      assert (a + b)[0] == a[0] && (a + b)[1..] == a[1..] + b;
      ReportsAppend(a[1..], b);
    } else {
      assert a + b == b;
    }
  }

  /** Stopped tracks distribute over concatenation of effect logs. */
  lemma {:induction false} StoppedTracksAppend(a: seq<Effect>, b: seq<Effect>)
    ensures StoppedTracks(a + b) == StoppedTracks(a) + StoppedTracks(b)
  {
    if a != [] {
      assert (a + b)[0] == a[0] && (a + b)[1..] == a[1..] + b;
      StoppedTracksAppend(a[1..], b);
    } else {
      assert a + b == b;
    }
  }

  /** A log none of whose effects is a report has no reports. */
  lemma {:induction false} NoReports(es: seq<Effect>)
    requires forall i :: 0 <= i < |es| ==> !IsReport(es[i])
    ensures Reports(es) == []
  {
    if es != [] {
      NoReports(es[1..]);
    }
  }

  /** A log with no StopTrack effect stops no track. */
  lemma {:induction false} NoStops(es: seq<Effect>)
    requires forall i :: 0 <= i < |es| ==> !es[i].StopTrack?
    ensures StoppedTracks(es) == []
  {
    if es != [] {
      NoStops(es[1..]);
    }
  }
}

=== FILE: cache_storage.dfy ===
/**
 * The slice of the browser's Cache Storage that sw.js uses: an ordered
 * collection of named caches, each a map from request URL to stored
 * response.  Names are unique; `caches.keys()` lists them in creation order
 * and `caches.match` searches the caches in that order.
 */
module CacheStorage {
  import opened Wrappers

  /** A stored or network response: its HTTP status and its body text. */
  datatype Response = Response(status: int, body: string)

  /** One cache: request URL to stored response. */
  type Cache = map<string, Response>

  /** A cache together with the name it is stored under. */
  datatype NamedCache = NamedCache(name: string, cache: Cache)

  /** The whole of Cache Storage, in creation order. */
  type Storage = seq<NamedCache>

  /** The cache names, in creation order (`caches.keys()`). */
  function Names(st: Storage): (r: seq<string>)
    ensures |r| == |st|
    ensures forall i :: 0 <= i < |st| ==> r[i] == st[i].name
  {
    if st == [] then [] else [st[0].name] + Names(st[1..])
  }

  /** No element of `xs` occurs twice. */
  predicate Distinct(xs: seq<string>) {
    forall i, j :: 0 <= i < j < |xs| ==> xs[i] != xs[j]
  }

  /** No name is stored twice. */
  predicate UniqueNames(st: Storage) {
    Distinct(Names(st))
  }

  /** A sequence with a head is distinct exactly when its tail is and lacks the head. */
  lemma DistinctCons(x: string, xs: seq<string>)
    ensures Distinct([x] + xs) <==> x !in xs && Distinct(xs)
  {
    var ys := [x] + xs;
    if x !in xs && Distinct(xs) {
      forall i, j | 0 <= i < j < |ys| ensures ys[i] != ys[j] {
        assert ys[j] == xs[j - 1];
        if i > 0 { assert ys[i] == xs[i - 1]; }
      }
    }
    if Distinct(ys) {
      forall k | 0 <= k < |xs| ensures xs[k] != x {
        assert ys[0] == x && ys[k + 1] == xs[k];
      }
      forall i, j | 0 <= i < j < |xs| ensures xs[i] != xs[j] {
        assert ys[i + 1] == xs[i] && ys[j + 1] == xs[j];
      }
    }
  }

  /** The cache stored under `name`, if any. */
  function Find(st: Storage, name: string): (r: Option<Cache>)
    ensures r.Some? <==> name in Names(st)
    ensures r.Some? ==> exists i :: 0 <= i < |st| && st[i] == NamedCache(name, r.value)
  {
    if st == [] then None
    else if st[0].name == name then Some(st[0].cache)
    else Find(st[1..], name)
  }

  /** `caches.open(name)`: the storage after opening, creating an empty cache if none exists. */
  function Open(st: Storage, name: string): (r: Storage)
    requires UniqueNames(st)
    ensures UniqueNames(r)
    ensures Find(r, name) == Some(Find(st, name).GetOr(map[]))
    ensures forall n :: n != name ==> Find(r, n) == Find(st, n)
  {
    if name in Names(st) then st
    else
      var c := NamedCache(name, map[]);
      FindAppendAbsent(st, c);
      assert Names(st + [c]) == Names(st) + [name];
      st + [c]
  }

  /** Replaces the contents of the cache named `name`, which must exist. */
  function Put(st: Storage, name: string, c: Cache): (r: Storage)
    requires name in Names(st)
    ensures Names(r) == Names(st)
    ensures Find(r, name) == Some(c)
    ensures forall n :: n != name ==> Find(r, n) == Find(st, n)
  {
    if st[0].name == name then [NamedCache(name, c)] + st[1..]
    else [st[0]] + Put(st[1..], name, c)
  }

  /** `caches.delete(name)`: the storage without the cache named `name`. */
  function Delete(st: Storage, name: string): (r: Storage)
    ensures UniqueNames(st) ==> UniqueNames(r)
    ensures Find(r, name).None?
    ensures forall n :: n != name ==> Find(r, n) == Find(st, n)
    ensures forall n :: n in Names(r) <==> n in Names(st) && n != name
  {
    if st == [] then []
    else if st[0].name == name then
      DistinctCons(st[0].name, Names(st[1..]));
      Delete(st[1..], name)
    else
      var rest := Delete(st[1..], name);
      DistinctCons(st[0].name, Names(st[1..]));
      DistinctCons(st[0].name, Names(rest));
      assert Names([st[0]] + rest) == [st[0].name] + Names(rest);
      [st[0]] + rest
  }

  /** `caches.match(url)`: the response stored for `url` in the first cache that has one. */
  function Match(st: Storage, url: string): (r: Option<Response>)
    ensures r.Some? <==> exists i :: 0 <= i < |st| && url in st[i].cache
    ensures r.Some? ==> exists i ::
      && 0 <= i < |st| && url in st[i].cache && st[i].cache[url] == r.value
      && (forall j :: 0 <= j < i ==> url !in st[j].cache)
  {
    if st == [] then None
    else if url in st[0].cache then Some(st[0].cache[url])
    else
      var r := Match(st[1..], url);
      assert forall i :: 1 <= i < |st| ==> st[i] == st[1..][i - 1];
      r
  }

  /** Appending a cache under a fresh name finds it and leaves every other name as it was. */
  lemma {:induction false} FindAppendAbsent(st: Storage, c: NamedCache)
    requires c.name !in Names(st)
    ensures Find(st + [c], c.name) == Some(c.cache)
    ensures forall n :: n != c.name ==> Find(st + [c], n) == Find(st, n)
  {
    if st != [] {
      assert (st + [c])[1..] == st[1..] + [c];
      FindAppendAbsent(st[1..], c);
    }
  }
}

=== FILE: camera_session.dfy ===
/**
 * The camera session of js/app.js: one `stream` slot bound to the video
 * preview, plus the display flags of the camera container and the
 * take-photo button.  `OpenCamera` fills the slot from an injected
 * `getUserMedia` outcome; `CloseCamera` is the cleanup every exit path runs.
 */
module CameraSession {
  import opened Wrappers
  import opened AppTypes

  /** The constraints `openCamera` asks for: rear camera, ideally 1280 x 720. */
  const CAMERA_CONSTRAINTS := MediaConstraints("environment", 1280, 720)

  /** The alert shown when the camera cannot be acquired. */
  const CAMERA_ERROR_MESSAGE := "No se pudo acceder a la cámara. Por favor, verifica los permisos."

  /**
   * How `navigator.mediaDevices.getUserMedia(...)` ends: a stream, a rejection (its
   * reason is only logged), or, when the page has no `navigator.mediaDevices` (an
   * insecure context), a TypeError thrown before any request is made.
   */
  datatype MediaOutcome = Granted(stream: Stream) | Refused | NoMediaDevices

  /** The page as loaded: no stream, preview empty, container hidden, button shown, no modal. */
  const Initial := Session(None, None, false, true, None)

  /** No stream is held, the camera container is hidden and the take-photo button shown. */
  predicate Closed(s: Session) {
    s.stream.None? && !s.containerShown && s.takePhotoShown
  }

  /**
   * The relation the page keeps between its pieces: the preview shows exactly the
   * held stream, the container is shown exactly while a stream is held, and the
   * take-photo button exactly while it is not.
   */
  predicate Consistent(s: Session) {
    && s.preview == s.stream
    && s.containerShown == s.stream.Some?
    && s.takePhotoShown == !s.containerShown
  }

  /** One StopTrack effect per track, in track order (`getTracks().forEach(t => t.stop())`). */
  function StopEffects(tracks: seq<TrackId>): (r: seq<Effect>)
    ensures |r| == |tracks|
    ensures forall i :: 0 <= i < |r| ==> r[i].StopTrack?
  {
    if tracks == [] then [] else [StopTrack(tracks[0])] + StopEffects(tracks[1..])
  }

  /** Stopping a stream's tracks stops exactly those tracks, in order. */
  lemma {:induction false} StopEffectsStopsAll(tracks: seq<TrackId>)
    ensures StoppedTracks(StopEffects(tracks)) == tracks
  {
    if tracks != [] {
      StopEffectsStopsAll(tracks[1..]);
      assert StopEffects(tracks)[1..] == StopEffects(tracks[1..]);
    }
  }

  /**
   * `closeCamera`: when a stream is held, stop each of its tracks, clear the slot and
   * detach the preview; in every case hide the container and show the button.
   */
  function CloseCamera(s: Session): (r: Step)
    ensures Closed(r.state)
    ensures Consistent(s) ==> Consistent(r.state) && r.state.preview.None?
    ensures s.stream.Some? ==> r.state.preview.None?
    ensures s.stream.None? ==> r.state.preview == s.preview
    ensures r.state.modal == s.modal
    ensures StoppedTracks(r.effects) == (if s.stream.Some? then s.stream.value.tracks else [])
    ensures Reports(r.effects) == []
    ensures forall i :: 0 <= i < |r.effects| ==> IsCleanup(r.effects[i])
    ensures |r.effects| > 0 && r.effects[|r.effects| - 1] == SetDisplay(false, true)
  {
    var tracks := if s.stream.Some? then s.stream.value.tracks else [];
    var stops := StopEffects(tracks);
    var effects := stops + [SetDisplay(false, true)];
    StoppedTracksAppend(stops, [SetDisplay(false, true)]);
    StopEffectsStopsAll(tracks);
    NoReports(effects);
    Step(s.(stream := None,
            preview := if s.stream.Some? then None else s.preview,
            containerShown := false,
            takePhotoShown := true),
         effects)
  }

  /**
   * `openCamera`: request the camera; on success bind the stream to the slot and the
   * preview, show the container and hide the button; on failure change nothing and
   * alert.  Without `navigator.mediaDevices` nothing is requested, only the alert
   * shown.  A stream already held is overwritten without being stopped.
   */
  function OpenCamera(s: Session, outcome: MediaOutcome): (r: Step)
    ensures RequestCamera(CAMERA_CONSTRAINTS) in r.effects <==> !outcome.NoMediaDevices?
    ensures !outcome.NoMediaDevices? ==>
      |r.effects| == 2 && r.effects[0] == RequestCamera(CAMERA_CONSTRAINTS)
    ensures StoppedTracks(r.effects) == []
    ensures Consistent(s) ==> Consistent(r.state)
    ensures outcome.Granted? ==>
      && r.state.stream == Some(outcome.stream)
      && r.state.preview == Some(outcome.stream)
      && r.state.containerShown && !r.state.takePhotoShown
      && r.state.modal == s.modal
      && Reports(r.effects) == []
    ensures !outcome.Granted? ==>
      && r.state == s
      && Reports(r.effects) == [Alert(CAMERA_ERROR_MESSAGE)]
    ensures outcome.NoMediaDevices? ==> r.effects == [Alert(CAMERA_ERROR_MESSAGE)]
  {
    match outcome
    case Granted(stream) =>
      Step(s.(stream := Some(stream), preview := Some(stream),
              containerShown := true, takePhotoShown := false),
           [RequestCamera(CAMERA_CONSTRAINTS), SetDisplay(true, false)])
    case Refused =>
      Step(s, [RequestCamera(CAMERA_CONSTRAINTS), Alert(CAMERA_ERROR_MESSAGE)])
    case NoMediaDevices =>
      Step(s, [Alert(CAMERA_ERROR_MESSAGE)])
  }

  /**
   * Closing is idempotent: a second close leaves the same state and stops no track,
   * whatever state the first close started from.
   */
  lemma CloseCameraIdempotent(s: Session)
    ensures var once := CloseCamera(s);
      && CloseCamera(once.state).state == once.state
      && StoppedTracks(CloseCamera(once.state).effects) == []
  {
  }

  /**
   * Open and close are inverse on a closed page: acquiring a stream and then closing
   * stops exactly that stream's tracks and gives back the page as it was.
   */
  lemma OpenThenCloseRestores(s: Session, stream: Stream)
    requires Consistent(s) && Closed(s)
    ensures var live := OpenCamera(s, Granted(stream)).state;
      && CloseCamera(live).state == s
      && StoppedTracks(CloseCamera(live).effects) == stream.tracks
  {
  }

  /**
   * Opening while a stream is already held replaces it without stopping any of its
   * tracks, and a later close stops only the new stream's tracks: the earlier
   * stream's tracks are never stopped.
   */
  lemma OpenOverLiveStreamDropsIt(s: Session, stream: Stream)
    requires s.stream.Some? && s.stream.value != stream
    ensures var r := OpenCamera(s, Granted(stream));
      && r.state.stream == Some(stream)
      && StoppedTracks(r.effects) == []
      && StoppedTracks(CloseCamera(r.state).effects) == stream.tracks
  {
  }
}

=== FILE: capture.dfy ===
/**
 * `capturePhotoWithLocation` and `showPhotoModal` of js/app.js: take the frame,
 * await the location, then close the camera and either show the modal or
 * alert.  Number-to-text rendering is injected as a `Renderer`.
 */
module Capture {
  import opened Wrappers
  import opened AppTypes
  import opened CameraSession
  import opened Location

  /** The two ways the page turns a coordinate into text: `String(n)` and `n.toFixed(6)`. */
  datatype Renderer = Renderer(raw: real -> string, fixed6: real -> string)

  /** The start of every map link. */
  const MAPS_PREFIX := "https://www.google.com/maps?q="

  /** The map link for a position: prefix, raw latitude, a comma, raw longitude. */
  function MapsUrl(raw: real -> string, c: Coordinates): string {
    MAPS_PREFIX + raw(c.latitude) + "," + raw(c.longitude)
  }

  /** Splits a text at its first comma. */
  function SplitAtComma(s: string): Option<(string, string)> {
    if s == [] then None
    else if s[0] == ',' then Some(([], s[1..]))
    else match SplitAtComma(s[1..])
      case None => None
      case Some((a, b)) => Some(([s[0]] + a, b))
  }

  /** Reads a map link back into the latitude and longitude texts it carries. */
  function ParseMapsUrl(url: string): Option<(string, string)> {
    if |MAPS_PREFIX| <= |url| && url[..|MAPS_PREFIX|] == MAPS_PREFIX then
      SplitAtComma(url[|MAPS_PREFIX|..])
    else None
  }

  /** A comma-free head joined by a comma to any tail splits back into the two. */
  lemma {:induction false} SplitAtCommaJoin(a: string, b: string)
    requires ',' !in a
    ensures SplitAtComma(a + "," + b) == Some((a, b))
  {
    if a != [] {
      var s := a + "," + b;
      assert s[0] == a[0];
      assert s[1..] == a[1..] + "," + b;
      SplitAtCommaJoin(a[1..], b);
      assert [a[0]] + a[1..] == a;
    } else {
      assert a + "," + b == [','] + b;
    }
  }

  /**
   * The map link round-trips: whenever the rendered latitude has no comma (true of
   * JavaScript's number-to-string), parsing the link gives back exactly the raw
   * renderings of both coordinates.
   */
  lemma MapsUrlRoundTrip(raw: real -> string, c: Coordinates)
    requires ',' !in raw(c.latitude)
    ensures ParseMapsUrl(MapsUrl(raw, c)) == Some((raw(c.latitude), raw(c.longitude)))
  {
    var url := MapsUrl(raw, c);
    assert url == MAPS_PREFIX + (raw(c.latitude) + "," + raw(c.longitude));
    assert url[..|MAPS_PREFIX|] == MAPS_PREFIX;
    assert url[|MAPS_PREFIX|..] == raw(c.latitude) + "," + raw(c.longitude);
    SplitAtCommaJoin(raw(c.latitude), raw(c.longitude));
  }

  /**
   * `showPhotoModal`: the image, the two coordinates at six decimals, and a map link
   * built from the raw, unrounded values.
   */
  function ShowPhotoModal(frame: Frame, c: Coordinates, render: Renderer): (m: Modal)
    ensures m.image == frame
    ensures m.latitudeText == render.fixed6(c.latitude)
    ensures m.longitudeText == render.fixed6(c.longitude)
    ensures ',' !in render.raw(c.latitude) ==>
      ParseMapsUrl(m.mapsHref) == Some((render.raw(c.latitude), render.raw(c.longitude)))
  {
    var href := MapsUrl(render.raw, c);
    assert ',' !in render.raw(c.latitude) ==>
      ParseMapsUrl(href) == Some((render.raw(c.latitude), render.raw(c.longitude))) by {
      if ',' !in render.raw(c.latitude) { MapsUrlRoundTrip(render.raw, c); }
    }
    Modal(frame, render.fixed6(c.latitude), render.fixed6(c.longitude), href)
  }

  /** Every cleanup effect of the log comes before every report. */
  predicate CleanupBeforeReport(es: seq<Effect>) {
    forall i, j :: 0 <= i < |es| && 0 <= j < |es| && IsCleanup(es[i]) && IsReport(es[j]) ==> i < j
  }

  /** Every report of the log comes before every cleanup effect. */
  predicate ReportBeforeCleanup(es: seq<Effect>) {
    forall i, j :: 0 <= i < |es| && 0 <= j < |es| && IsReport(es[i]) && IsCleanup(es[j]) ==> i < j
  }

  /** Effects that are neither cleanup nor reports: the frame grab and the position query. */
  predicate Preparatory(es: seq<Effect>) {
    forall i :: 0 <= i < |es| ==> !IsReport(es[i]) && !IsCleanup(es[i])
  }

  /** The log opens with the grab of `frame` and grabs nothing after it. */
  predicate GrabbedFirst(es: seq<Effect>, frame: Frame) {
    |es| > 0 && es[0] == GrabFrame(frame) && forall i :: 0 < i < |es| ==> !es[i].GrabFrame?
  }

  /** Appending effects that grab no frame keeps the grab first and alone. */
  lemma GrabbedFirstAppend(es: seq<Effect>, tail: seq<Effect>, frame: Frame)
    requires GrabbedFirst(es, frame)
    requires forall i :: 0 <= i < |tail| ==> !tail[i].GrabFrame?
    ensures GrabbedFirst(es + tail, frame)
  {
  }

  /**
   * A capture log, the frame grab and `getLocation`'s effects followed by cleanup and one
   * report in either order, opens with exactly those first effects and queries the
   * position exactly when geolocation exists.
   */
  lemma QueryFollowsGrab(frame: Frame, geo: Geolocation, cleanup: seq<Effect>, report: Effect, reportLast: bool)
    requires forall i :: 0 <= i < |cleanup| ==> IsCleanup(cleanup[i])
    requires IsReport(report)
    ensures var head := [GrabFrame(frame)] + GetLocation(geo).effects;
      var es := if reportLast then head + cleanup + [report] else head + [report] + cleanup;
      && es[..|head|] == head
      && (QueryPosition(GEO_OPTIONS) in es <==> geo.Supported?)
  {
    var head := [GrabFrame(frame)] + GetLocation(geo).effects;
    var tail := if reportLast then cleanup + [report] else [report] + cleanup;
    var es := if reportLast then head + cleanup + [report] else head + [report] + cleanup;
    assert es == head + tail;
    assert forall i :: 0 <= i < |tail| ==> IsCleanup(tail[i]) || IsReport(tail[i]) by {
      forall i | 0 <= i < |tail| ensures IsCleanup(tail[i]) || IsReport(tail[i]) {
        if reportLast {
          if i < |cleanup| { assert tail[i] == cleanup[i]; }
        } else {
          if i > 0 { assert tail[i] == cleanup[i - 1]; }
        }
      }
    }
    assert es[..|head|] == head;
    assert QueryPosition(GEO_OPTIONS) !in tail;
    if geo.Supported? {
      assert es[1] == QueryPosition(GEO_OPTIONS);
    }
  }

  /** A log of preparation, then cleanup, then one report: that report alone, after all cleanup. */
  lemma ReportLastShape(frame: Frame, head: seq<Effect>, cleanup: seq<Effect>, report: Effect)
    requires Preparatory(head)
    requires forall i :: 0 <= i < |cleanup| ==> IsCleanup(cleanup[i])
    requires IsReport(report)
    ensures Reports(head + cleanup + [report]) == [report]
    ensures StoppedTracks(head + cleanup + [report]) == StoppedTracks(cleanup)
    ensures CleanupBeforeReport(head + cleanup + [report])
    ensures GrabbedFirst(head, frame) ==> GrabbedFirst(head + cleanup + [report], frame)
  {
    ReportLastCounts(head, cleanup, report);
    ReportLastOrder(head, cleanup, report);
    if GrabbedFirst(head, frame) {
      GrabbedFirstAppend(head, cleanup, frame);
      GrabbedFirstAppend(head + cleanup, [report], frame);
    }
  }

  /** The report-last log holds one report and stops exactly the cleanup's tracks. */
  lemma ReportLastCounts(head: seq<Effect>, cleanup: seq<Effect>, report: Effect)
    requires Preparatory(head)
    requires forall i :: 0 <= i < |cleanup| ==> IsCleanup(cleanup[i])
    requires IsReport(report)
    ensures Reports(head + cleanup + [report]) == [report]
    ensures StoppedTracks(head + cleanup + [report]) == StoppedTracks(cleanup)
  {
    NoReports(head);
    NoReports(cleanup);
    NoStops(head);
    ReportsAppend(head, cleanup);
    ReportsAppend(head + cleanup, [report]);
    StoppedTracksAppend(head, cleanup);
    StoppedTracksAppend(head + cleanup, [report]);
    assert StoppedTracks([report]) == [];
  }

  /** In the report-last log every cleanup effect precedes the report. */
  lemma ReportLastOrder(head: seq<Effect>, cleanup: seq<Effect>, report: Effect)
    requires Preparatory(head)
    requires forall i :: 0 <= i < |cleanup| ==> IsCleanup(cleanup[i])
    requires IsReport(report)
    ensures CleanupBeforeReport(head + cleanup + [report])
  {
  }

  /** A log of preparation, then one report, then cleanup: that report alone, before all cleanup. */
  lemma ReportFirstShape(frame: Frame, head: seq<Effect>, report: Effect, cleanup: seq<Effect>)
    requires Preparatory(head)
    requires IsReport(report)
    requires forall i :: 0 <= i < |cleanup| ==> IsCleanup(cleanup[i])
    ensures Reports(head + [report] + cleanup) == [report]
    ensures StoppedTracks(head + [report] + cleanup) == StoppedTracks(cleanup)
    ensures ReportBeforeCleanup(head + [report] + cleanup)
    ensures GrabbedFirst(head, frame) ==> GrabbedFirst(head + [report] + cleanup, frame)
  {
    ReportFirstCounts(head, report, cleanup);
    ReportFirstOrder(head, report, cleanup);
    if GrabbedFirst(head, frame) {
      GrabbedFirstAppend(head, [report], frame);
      GrabbedFirstAppend(head + [report], cleanup, frame);
    }
  }

  /** The report-first log holds one report and stops exactly the cleanup's tracks. */
  lemma ReportFirstCounts(head: seq<Effect>, report: Effect, cleanup: seq<Effect>)
    requires Preparatory(head)
    requires IsReport(report)
    requires forall i :: 0 <= i < |cleanup| ==> IsCleanup(cleanup[i])
    ensures Reports(head + [report] + cleanup) == [report]
    ensures StoppedTracks(head + [report] + cleanup) == StoppedTracks(cleanup)
  {
    NoReports(head);
    NoReports(cleanup);
    NoStops(head);
    ReportsAppend(head, [report]);
    ReportsAppend(head + [report], cleanup);
    StoppedTracksAppend(head, [report]);
    StoppedTracksAppend(head + [report], cleanup);
    assert StoppedTracks([report]) == [];
  }

  /** In the report-first log the report precedes every cleanup effect. */
  lemma ReportFirstOrder(head: seq<Effect>, report: Effect, cleanup: seq<Effect>)
    requires Preparatory(head)
    requires IsReport(report)
    requires forall i :: 0 <= i < |cleanup| ==> IsCleanup(cleanup[i])
    ensures ReportBeforeCleanup(head + [report] + cleanup)
  {
  }

  /**
   * `capturePhotoWithLocation`: grab the frame, then await the location.  On a fix,
   * close the camera and then show the modal; on any rejection, alert the message
   * chosen by the error's code and then close the camera.
   */
  function CapturePhotoWithLocation(s: Session, frame: Frame, geo: Geolocation, render: Renderer): (r: Step)
    ensures GrabbedFirst(r.effects, frame)
    ensures Closed(r.state)
    ensures Consistent(s) ==> Consistent(r.state)
    ensures StoppedTracks(r.effects) == (if s.stream.Some? then s.stream.value.tracks else [])
    ensures |Reports(r.effects)| == 1
    ensures GetLocation(geo).result.Resolved? ==>
      var m := ShowPhotoModal(frame, GetLocation(geo).result.coords, render);
      && Reports(r.effects) == [ShowModal(m)]
      && r.state.modal == Some(m)
      && CleanupBeforeReport(r.effects)
    ensures GetLocation(geo).result.Rejected? ==>
      && Reports(r.effects) == [Alert(AlertFor(GetLocation(geo).result.error))]
      && r.state.modal == s.modal
      && ReportBeforeCleanup(r.effects)
  {
    var query := GetLocation(geo);
    var closed := CloseCamera(s);
    var head := [GrabFrame(frame)] + query.effects;
    match query.result
    case Resolved(c) =>
      var m := ShowPhotoModal(frame, c, render);
      ReportLastShape(frame, head, closed.effects, ShowModal(m));
      Step(closed.state.(modal := Some(m)), head + closed.effects + [ShowModal(m)])
    case Rejected(e) =>
      ReportFirstShape(frame, head, Alert(AlertFor(e)), closed.effects);
      Step(closed.state, head + [Alert(AlertFor(e))] + closed.effects)
  }

  /**
   * Each capture makes its own position query after the frame grab: the grab is followed
   * directly by exactly `getLocation`'s effects, and the log queries the position, with
   * the fixed options, exactly when geolocation exists.
   */
  lemma CaptureQueriesAfterGrab(s: Session, frame: Frame, geo: Geolocation, render: Renderer)
    ensures var es := CapturePhotoWithLocation(s, frame, geo, render).effects;
      && |es| > |GetLocation(geo).effects|
      && es[..1 + |GetLocation(geo).effects|] == [GrabFrame(frame)] + GetLocation(geo).effects
      && (QueryPosition(GEO_OPTIONS) in es <==> geo.Supported?)
  {
    var es := CapturePhotoWithLocation(s, frame, geo, render).effects;
    var head := [GrabFrame(frame)] + GetLocation(geo).effects;
    var cleanup := CloseCamera(s).effects;
    var report :| IsReport(report) && (es == head + cleanup + [report] || es == head + [report] + cleanup);
    QueryFollowsGrab(frame, geo, cleanup, report, es == head + cleanup + [report]);
  }

  /** One of the three operations the page's controls run. */
  datatype Operation =
    | OpenOp(outcome: MediaOutcome)
    | CaptureOp(frame: Frame, geo: Geolocation)
    | CloseOp

  /** Runs one operation. */
  function Apply(s: Session, op: Operation, render: Renderer): Step {
    match op
    case OpenOp(outcome) => OpenCamera(s, outcome)
    case CaptureOp(frame, geo) => CapturePhotoWithLocation(s, frame, geo, render)
    case CloseOp => CloseCamera(s)
  }

  /**
   * Runs operations in order.  The page stays consistent throughout: whatever sequence
   * of opens (successful or not), captures (with any location outcome) and closes runs,
   * the preview shows exactly the held stream and the container is shown exactly while
   * one is held.
   */
  function Run(s: Session, ops: seq<Operation>, render: Renderer): (r: Session)
    ensures Consistent(s) ==> Consistent(r)
    ensures ops != [] && !ops[|ops| - 1].OpenOp? ==> Closed(r)
    decreases |ops|
  {
    if ops == [] then s
    else Run(Apply(s, ops[0], render).state, ops[1..], render)
  }

  /** The page as loaded is consistent, so every state reachable from it is. */
  lemma ReachableIsConsistent(ops: seq<Operation>, render: Renderer)
    ensures Consistent(Run(Initial, ops, render))
  {
  }
}

=== FILE: fetch_routing.dfy ===
/**
 * The fetch handler of sw.js: an "external origin" guard that would pass the
 * request straight to the network, and otherwise cache-first serving with a
 * network fallback and a synthesised 503.  The guard is modelled as written,
 * with JavaScript's values, strict equality and the ReferenceError that reading
 * an undeclared `window` raises.  It never holds: on a local origin it is false,
 * elsewhere it throws and the browser fetches the request itself.  A corrected
 * handler, with the guard the comments describe, is defined alongside.
 */
module FetchRouting {
  import opened Wrappers
  import opened CacheStorage
  import opened ServiceWorker

  /** The parts of a request's URL the handler reads. */
  datatype Request = Request(href: string, origin: string, hostname: string)

  /** The JavaScript values the guard can meet. */
  datatype JsValue = Undefined | JsBool(b: bool) | JsString(s: string)

  /** ECMAScript ToBoolean on those values: undefined is false, a string is true when non-empty. */
  function ToBoolean(v: JsValue): bool {
    match v
    case Undefined => false
    case JsBool(b) => b
    case JsString(s) => s != ""
  }

  /** The `!` operator: the negated ToBoolean, always a boolean. */
  function LogicalNot(v: JsValue): JsValue {
    JsBool(!ToBoolean(v))
  }

  /** ECMAScript IsStrictlyEqual (`===`): values of different types are never equal. */
  function StrictEquals(a: JsValue, b: JsValue): bool {
    match (a, b)
    case (Undefined, Undefined) => true
    case (JsBool(x), JsBool(y)) => x == y
    case (JsString(x), JsString(y)) => x == y
    case _ => false
  }

  /** Strict equality holds only between equal values of the same type. */
  lemma StrictEqualsMeansSameValue(a: JsValue, b: JsValue)
    ensures StrictEquals(a, b) <==> a == b
  {
  }

  /**
   * How the global scope binds `window`.  Declared, it may lack a location (the
   * hostname is then absent); a service worker's global scope does not declare it.
   */
  datatype WindowBinding = Undeclared | Declared(hostname: Option<string>)

  /** The binding sw.js runs under: a service worker has no `window`. */
  const WORKER_WINDOW := Undeclared

  /** The completion of evaluating an expression: a value, or a thrown ReferenceError. */
  datatype Completion = Normal(value: JsValue) | ReferenceError

  /**
   * `window?.location?.hostname`.  Optional chaining guards a null or undefined
   * value, not an undeclared name: reading an undeclared `window` throws.
   */
  function WindowHostname(window: WindowBinding): Completion {
    match window
    case Undeclared => ReferenceError
    case Declared(None) => Normal(Undefined)
    case Declared(Some(h)) => Normal(JsString(h))
  }

  /** `sub` occurs in `s` starting at index `i`. */
  predicate OccursAt(s: string, sub: string, i: int) {
    0 <= i && i + |sub| <= |s| && s[i..i + |sub|] == sub
  }

  /** `String.prototype.includes`: `sub` occurs somewhere in `s`. */
  function Includes(s: string, sub: string): (b: bool)
    ensures b <==> exists i :: OccursAt(s, sub, i)
    decreases |s|
  {
    if |s| < |sub| then false
    else if s[..|sub|] == sub then
      assert OccursAt(s, sub, 0);
      true
    else
      var rest := Includes(s[1..], sub);
      assert forall k :: OccursAt(s[1..], sub, k) <==> OccursAt(s, sub, k + 1) by {
        forall k ensures OccursAt(s[1..], sub, k) <==> OccursAt(s, sub, k + 1) {
          if 0 <= k && k + |sub| <= |s| - 1 {
            assert s[1..][k..k + |sub|] == s[k + 1..k + 1 + |sub|];
          }
        }
      }
      assert (exists i :: OccursAt(s, sub, i)) ==> rest by {
        if i :| OccursAt(s, sub, i) {
          assert i != 0;
          assert OccursAt(s[1..], sub, i - 1);
        }
      }
      rest
  }

  /** The request's origin names localhost or 127.0.0.1. */
  predicate IsLocal(req: Request) {
    Includes(req.origin, "localhost") || Includes(req.origin, "127.0.0.1")
  }

  /** How the guard's evaluation ends: a boolean, or an exception out of the handler. */
  datatype GuardOutcome = Evaluated(holds: bool) | Threw

  /**
   * The guard as written: the origin names neither localhost nor 127.0.0.1, and
   * `!url.hostname === window?.location?.hostname`.  `&&` stops at the first false
   * operand, so the last one is reached only for a non-local origin; there, with no
   * `window`, it throws.  With a `window`, `!` binds tighter than `===`, so a boolean
   * is compared with a string or undefined and the guard is false.
   */
  function PassThroughGuard(req: Request, window: WindowBinding): (g: GuardOutcome)
    ensures g != Evaluated(true)
    ensures g.Threw? <==> !IsLocal(req) && window.Undeclared?
  {
    if Includes(req.origin, "localhost") then Evaluated(false)
    else if Includes(req.origin, "127.0.0.1") then Evaluated(false)
    else
      match WindowHostname(window)
      case ReferenceError => Threw
      case Normal(host) => Evaluated(StrictEquals(LogicalNot(JsString(req.hostname)), host))
  }

  /** The body and status of the synthesised offline reply. */
  const OFFLINE_RESPONSE := Response(503, "No disponible")

  /**
   * Who answered: the handler's pass-through branch, its cache-first branch, or the
   * browser's own network fetch when the handler threw before `respondWith`.
   */
  datatype Route = PassThrough | CacheFirst | BrowserDefault

  /** What the page receives: a response, or the network error of an unanswered fetch. */
  datatype Reply = Respond(response: Response) | FetchFailed

  /** The handler's answer, with the URLs it fetched from the network, in order. */
  datatype FetchStep = FetchStep(route: Route, reply: Reply, fetched: seq<string>)

  /** A plain network fetch of the request, its outcome handed to the page unchanged. */
  function FromNetwork(route: Route, req: Request, net: Network): (r: FetchStep)
    ensures r.route == route && r.fetched == [req.href]
    ensures net(req.href).Delivered? ==> r.reply == Respond(net(req.href).response)
    ensures net(req.href).NetworkError? ==> r.reply == FetchFailed
  {
    match net(req.href)
    case Delivered(resp) => FetchStep(route, Respond(resp), [req.href])
    case NetworkError => FetchStep(route, FetchFailed, [req.href])
  }

  /**
   * The cache-first branch: the cached response; on a miss the network's response,
   * or the offline reply when the network fails.  The page always gets a response.
   */
  function ServeCacheFirst(st: Storage, req: Request, net: Network): (r: FetchStep)
    ensures r.route == CacheFirst && r.reply.Respond?
    ensures Match(st, req.href).Some? ==>
      r.reply == Respond(Match(st, req.href).value) && r.fetched == []
    ensures Match(st, req.href).None? ==> r.fetched == [req.href]
    ensures Match(st, req.href).None? && net(req.href).Delivered? ==>
      r.reply == Respond(net(req.href).response)
    ensures Match(st, req.href).None? && net(req.href).NetworkError? ==>
      r.reply == Respond(OFFLINE_RESPONSE)
  {
    match Match(st, req.href)
    case Some(resp) => FetchStep(CacheFirst, Respond(resp), [])
    case None =>
      match net(req.href)
      case Delivered(resp) => FetchStep(CacheFirst, Respond(resp), [req.href])
      case NetworkError => FetchStep(CacheFirst, Respond(OFFLINE_RESPONSE), [req.href])
  }

  /**
   * The fetch handler as written: pass-through when the guard holds, cache-first when
   * it is false, and the browser's own fetch when evaluating it throws.
   */
  function HandleFetch(st: Storage, req: Request, net: Network, window: WindowBinding): (r: FetchStep)
    ensures r.route != PassThrough
    ensures r.route == BrowserDefault <==> !IsLocal(req) && window.Undeclared?
    ensures r.route == BrowserDefault ==> r.fetched == [req.href]
    ensures r.route == BrowserDefault && net(req.href).Delivered? ==>
      r.reply == Respond(net(req.href).response)
    ensures r.route == BrowserDefault && net(req.href).NetworkError? ==> r.reply == FetchFailed
    ensures r.route == CacheFirst ==> r.reply.Respond?
    ensures r.route == CacheFirst && Match(st, req.href).Some? ==>
      r.reply == Respond(Match(st, req.href).value) && r.fetched == []
    ensures r.route == CacheFirst && Match(st, req.href).None? ==> r.fetched == [req.href]
    ensures r.route == CacheFirst && Match(st, req.href).None? && net(req.href).Delivered? ==>
      r.reply == Respond(net(req.href).response)
    ensures r.route == CacheFirst && Match(st, req.href).None? && net(req.href).NetworkError? ==>
      r.reply == Respond(OFFLINE_RESPONSE)
  {
    match PassThroughGuard(req, window)
    case Threw => FromNetwork(BrowserDefault, req, net)
    case Evaluated(true) => FromNetwork(PassThrough, req, net)
    case Evaluated(false) => ServeCacheFirst(st, req, net)
  }

  /**
   * On a local origin, after a successful install followed by activation, every
   * app-shell URL is answered from the cache with the response install stored,
   * without touching the network, whatever the network does now.
   */
  lemma ShellServedOfflineLocally(st: Storage, installNet: Network, req: Request, net: Network, window: WindowBinding)
    requires UniqueNames(st)
    requires ShellReachable(installNet)
    requires req.href in URLS_TO_CACHE
    requires IsLocal(req)
    ensures var live := Activate(Install(st, installNet).storage).storage;
      HandleFetch(live, req, net, window)
        == FetchStep(CacheFirst, Respond(installNet(req.href).response), [])
  {
  }

  /**
   * On a deployed origin (here `https://x`), the shell is cached after a successful
   * install and activation, yet with the network down the page gets a network error:
   * the handler throws before answering and the cache is never consulted.
   */
  lemma DeployedShellFailsOffline(st: Storage, installNet: Network, net: Network)
    requires UniqueNames(st)
    requires ShellReachable(installNet)
    requires net("./index.html") == NetworkError
    ensures var live := Activate(Install(st, installNet).storage).storage;
      && Match(live, "./index.html").Some?
      && HandleFetch(live, Request("./index.html", "https://x", "x"), net, WORKER_WINDOW)
        == FetchStep(BrowserDefault, FetchFailed, ["./index.html"])
  {
    var req := Request("./index.html", "https://x", "x");
    assert URLS_TO_CACHE[1] == req.href;
    ShellServedOffline(st, installNet, req, net, req.hostname);
    // "https://x" is one character longer than either local name, so each can only
    // occur at index 0 or 1; it starts at neither.
    assert req.origin[0] == 'h' && "localhost"[0] == 'l' && "127.0.0.1"[0] == '1';
    assert !Includes(req.origin[1..], "localhost") && !Includes(req.origin[1..], "127.0.0.1");
    assert !Includes(req.origin, "localhost") && !Includes(req.origin, "127.0.0.1");
  }

  /**
   * The guard the comments describe: a request to another host, from an origin that
   * is not local, goes to the network; `self` stands for the missing `window`.
   */
  predicate ExternalRequest(req: Request, scopeHost: string) {
    !IsLocal(req) && req.hostname != scopeHost
  }

  /**
   * The fetch handler as intended: external requests pass straight to the network,
   * everything else is served cache-first.  `scopeHost` is the worker's own hostname.
   */
  function HandleFetchIntended(st: Storage, req: Request, net: Network, scopeHost: string): (r: FetchStep)
    ensures r.route != BrowserDefault
    ensures r.route == PassThrough <==> ExternalRequest(req, scopeHost)
    ensures r.route == PassThrough ==> r.fetched == [req.href]
    ensures r.route == PassThrough && net(req.href).Delivered? ==>
      r.reply == Respond(net(req.href).response)
    ensures r.route == PassThrough && net(req.href).NetworkError? ==> r.reply == FetchFailed
    ensures r.route == CacheFirst ==> r.reply.Respond?
    ensures r.route == CacheFirst && Match(st, req.href).Some? ==>
      r.reply == Respond(Match(st, req.href).value) && r.fetched == []
    ensures r.route == CacheFirst && Match(st, req.href).None? ==> r.fetched == [req.href]
    ensures r.route == CacheFirst && Match(st, req.href).None? && net(req.href).Delivered? ==>
      r.reply == Respond(net(req.href).response)
    ensures r.route == CacheFirst && Match(st, req.href).None? && net(req.href).NetworkError? ==>
      r.reply == Respond(OFFLINE_RESPONSE)
  {
    if ExternalRequest(req, scopeHost) then FromNetwork(PassThrough, req, net)
    else ServeCacheFirst(st, req, net)
  }

  /**
   * With the intended guard, after a successful install followed by activation, every
   * app-shell URL requested from the worker's own host is answered from the cache
   * with the response install stored, without touching the network.
   */
  lemma ShellServedOffline(st: Storage, installNet: Network, req: Request, net: Network, scopeHost: string)
    requires UniqueNames(st)
    requires ShellReachable(installNet)
    requires req.href in URLS_TO_CACHE
    requires !ExternalRequest(req, scopeHost)
    ensures var live := Activate(Install(st, installNet).storage).storage;
      HandleFetchIntended(live, req, net, scopeHost)
        == FetchStep(CacheFirst, Respond(installNet(req.href).response), [])
  {
  }
}

=== FILE: location.dfy ===
/**
 * `getLocation` of js/app.js and the alert text `capturePhotoWithLocation`
 * chooses for a location error.  The device's geolocation capability and the
 * position it reports are injected as a `Geolocation` value.
 */
module Location {
  import opened Wrappers
  import opened AppTypes

  /** The fixed query options: high accuracy, a 10000 ms timeout, no cached fix. */
  const GEO_OPTIONS := PositionOptions(true, 10000, 0)

  /** The message of the error `getLocation` rejects with when geolocation is missing. */
  const UNSUPPORTED_MESSAGE := "Geolocalización no soportada"

  /** What the position query settles to: a fix, or a position error with its code. */
  datatype PositionOutcome =
    | Fix(latitude: real, longitude: real)
    | PositionFailure(code: int, message: string)

  /** The device's geolocation capability: absent, or present with the outcome its query will give. */
  datatype Geolocation = Unsupported | Supported(outcome: PositionOutcome)

  /** A rejection reason: a position error carries a numeric code, a plain Error does not. */
  datatype LocationError = LocationError(code: Option<int>, message: string)

  /** How the promise `getLocation` returns settles. */
  datatype LocationResult = Resolved(coords: Coordinates) | Rejected(error: LocationError)

  /** The settled promise together with the browser calls made to reach it. */
  datatype Query = Query(result: LocationResult, effects: seq<Effect>)

  /**
   * `getLocation`: reject at once, without querying, when geolocation is missing;
   * otherwise query once with GEO_OPTIONS and resolve to exactly the fix's two
   * coordinates, or reject with the position error.
   */
  function GetLocation(geo: Geolocation): (q: Query)
    ensures geo.Unsupported? ==>
      q.effects == [] && q.result == Rejected(LocationError(None, UNSUPPORTED_MESSAGE))
    ensures geo.Supported? ==> q.effects == [QueryPosition(GEO_OPTIONS)]
    ensures q.result.Resolved? <==> geo.Supported? && geo.outcome.Fix?
    ensures q.result.Resolved? ==>
      q.result.coords == Coordinates(geo.outcome.latitude, geo.outcome.longitude)
    ensures geo.Supported? && geo.outcome.PositionFailure? ==>
      q.result == Rejected(LocationError(Some(geo.outcome.code), geo.outcome.message))
  {
    match geo
    case Unsupported =>
      Query(Rejected(LocationError(None, UNSUPPORTED_MESSAGE)), [])
    case Supported(outcome) =>
      var result :=
        match outcome
        case Fix(lat, lon) => Resolved(Coordinates(lat, lon))
        case PositionFailure(code, message) => Rejected(LocationError(Some(code), message));
      Query(result, [QueryPosition(GEO_OPTIONS)])
  }

  /** The cases the capture's error handler tells apart. */
  datatype ErrorClass = PermissionDenied | PositionUnavailable | Timeout | Other(detail: string)

  /** Codes 1, 2 and 3 (strict equality with a number) pick a class; anything else is Other. */
  function Classify(e: LocationError): (c: ErrorClass)
    ensures c == PermissionDenied <==> e.code == Some(1)
    ensures c == PositionUnavailable <==> e.code == Some(2)
    ensures c == Timeout <==> e.code == Some(3)
    ensures c.Other? <==> e.code !in {Some(1), Some(2), Some(3)}
    ensures c.Other? ==> c.detail == e.message
  {
    match e.code
    case Some(1) => PermissionDenied
    case Some(2) => PositionUnavailable
    case Some(3) => Timeout
    case _ => Other(e.message)
  }

  // The fixed alerts, written in pieces short enough for the verifier to read character by character.
  const PERMISSION_TEXT := "Permiso de ubicación denegado. " + "Por favor, habilita el acceso a la ubicación."
  const UNAVAILABLE_TEXT := "No se pudo obtener la ubicación. " + "Verifica tu conexión GPS."
  const TIMEOUT_TEXT := "Tiempo de espera agotado " + "al obtener la ubicación."
  /** The generic alert is this prefix followed by the error's own message. */
  const GENERIC_PREFIX := "Error al capturar foto con ubicación: "

  /** The alert text for each class. */
  function AlertText(c: ErrorClass): string {
    match c
    case PermissionDenied => PERMISSION_TEXT
    case PositionUnavailable => UNAVAILABLE_TEXT
    case Timeout => TIMEOUT_TEXT
    case Other(detail) => GENERIC_PREFIX + detail
  }

  /** The alert the capture shows for a location error. */
  function AlertFor(e: LocationError): string {
    AlertText(Classify(e))
  }

  /** Reads an alert text back into the class it reports, if it is one of the capture's alerts. */
  function ClassOfAlert(text: string): Option<ErrorClass> {
    if text == PERMISSION_TEXT then Some(PermissionDenied)
    else if text == UNAVAILABLE_TEXT then Some(PositionUnavailable)
    else if text == TIMEOUT_TEXT then Some(Timeout)
    else if |GENERIC_PREFIX| <= |text| && text[..|GENERIC_PREFIX|] == GENERIC_PREFIX then
      Some(Other(text[|GENERIC_PREFIX|..]))
    else None
  }

  /** Every alert text names its class unambiguously: reading it back gives the class. */
  lemma AlertTextRoundTrip(c: ErrorClass)
    ensures ClassOfAlert(AlertText(c)) == Some(c)
  {
    if c.Other? {
      var t := AlertText(c);
      assert t[0] == 'E';
      assert PERMISSION_TEXT[0] == 'P' && UNAVAILABLE_TEXT[0] == 'N' && TIMEOUT_TEXT[0] == 'T';
      assert t[..|GENERIC_PREFIX|] == GENERIC_PREFIX;
      assert t[|GENERIC_PREFIX|..] == c.detail;
    }
  }

  /** Distinct classes give distinct alerts: the message is a faithful function of the class. */
  lemma AlertTextInjective(c1: ErrorClass, c2: ErrorClass)
    ensures AlertText(c1) == AlertText(c2) <==> c1 == c2
  {
    AlertTextRoundTrip(c1);
    AlertTextRoundTrip(c2);
  }

  /**
   * The alert chosen for an error is total and decided by the code alone: codes 1, 2 and 3
   * give their fixed texts whatever the message; any other code, or none (the
   * "unsupported" rejection), gives the generic prefix followed by the error's message.
   */
  lemma AlertForByCode(e: LocationError)
    ensures e.code == Some(1) ==> AlertFor(e) == PERMISSION_TEXT
    ensures e.code == Some(2) ==> AlertFor(e) == UNAVAILABLE_TEXT
    ensures e.code == Some(3) ==> AlertFor(e) == TIMEOUT_TEXT
    ensures e.code !in {Some(1), Some(2), Some(3)} ==> ClassOfAlert(AlertFor(e)) == Some(Other(e.message))
  {
    AlertTextRoundTrip(Classify(e));
  }

  /**
   * What the user is told when a supported device fails to give a position: each of
   * the three fixed alerts appears exactly for its code, and every other code reads
   * back as the generic alert carrying the device's message.
   */
  lemma PositionFailureAlert(code: int, message: string)
    ensures var e := GetLocation(Supported(PositionFailure(code, message))).result.error;
      && (AlertFor(e) == PERMISSION_TEXT <==> code == 1)
      && (AlertFor(e) == UNAVAILABLE_TEXT <==> code == 2)
      && (AlertFor(e) == TIMEOUT_TEXT <==> code == 3)
      && (code !in {1, 2, 3} ==> ClassOfAlert(AlertFor(e)) == Some(Other(message)))
  {
    var e := GetLocation(Supported(PositionFailure(code, message))).result.error;
    AlertTextInjective(Classify(e), PermissionDenied);
    AlertTextInjective(Classify(e), PositionUnavailable);
    AlertTextInjective(Classify(e), Timeout);
    AlertTextRoundTrip(Classify(e));
  }

  /** Missing geolocation is reported as the generic alert carrying "Geolocalización no soportada". */
  lemma UnsupportedAlert()
    ensures ClassOfAlert(AlertFor(GetLocation(Unsupported).result.error)) == Some(Other(UNSUPPORTED_MESSAGE))
  {
    AlertTextRoundTrip(Other(UNSUPPORTED_MESSAGE));
  }
}

=== FILE: service_worker.dfy ===
/**
 * The lifecycle handlers of sw.js: install fills the current cache generation
 * from a fixed manifest in one all-or-nothing `addAll`, activate deletes
 * every other generation and then claims the clients.  The network is
 * injected as a function from URL to fetch outcome.
 */
module ServiceWorker {
  import opened Wrappers
  import opened CacheStorage

  /** The name of the current cache generation. */
  const CACHE_NAME := "pwa-camera-gps-v1"

  /** The app shell: the seven URLs install stores. */
  const URLS_TO_CACHE: seq<string> := [
    "./",
    "./index.html",
    "./css/style.css",
    "./js/app.js",
    "./manifest.json",
    "./icons/icon-192.png",
    "./icons/icon-512.png"
  ]

  /** How a network fetch settles: a response (of any status), or a network error. */
  datatype NetOutcome = Delivered(response: Response) | NetworkError

  /** The network as the worker sees it. */
  type Network = string -> NetOutcome

  /** The worker's lifecycle calls and diagnostics, in order. */
  datatype SwEffect =
    | SkipWaiting
    | InstallErrorLogged
    | DeleteCache(name: string)
    | ClaimClients

  /**
   * A response `addAll` accepts: an ok status (200-299), except 206 Partial Content,
   * which Cache.put refuses.
   */
  predicate AddAllAccepts(r: Response) {
    200 <= r.status <= 299 && r.status != 206
  }

  /** The fetch of `url` delivers a response `addAll` will store. */
  predicate Storable(net: Network, url: string) {
    net(url).Delivered? && AddAllAccepts(net(url).response)
  }

  /**
   * The fetching half of `cache.addAll(urls)`: every URL's response when all of them are
   * delivered with an ok status, and nothing at all otherwise.
   */
  function FetchAll(urls: seq<string>, net: Network): (r: Option<Cache>)
    ensures r.Some? <==> forall i :: 0 <= i < |urls| ==> Storable(net, urls[i])
    ensures r.Some? ==> forall u :: u in r.value <==> u in urls
    ensures r.Some? ==> forall u :: u in r.value ==> net(u) == Delivered(r.value[u])
  {
    if urls == [] then Some(map[])
    else if !Storable(net, urls[0]) then None
    else
      match FetchAll(urls[1..], net)
      case None => None
      case Some(m) => Some(m[urls[0] := net(urls[0]).response])
  }

  /** Install succeeds exactly when every manifest URL is storable. */
  predicate ShellReachable(net: Network) {
    forall i :: 0 <= i < |URLS_TO_CACHE| ==> Storable(net, URLS_TO_CACHE[i])
  }

  /** Storing a complete manifest fetch over a cache keeps other URLs and stores every manifest URL. */
  lemma AddAllContents(existing: Cache, fetched: Cache, net: Network)
    requires forall u :: u in fetched <==> u in URLS_TO_CACHE
    requires forall u :: u in fetched ==> net(u) == Delivered(fetched[u])
    ensures var c := existing + fetched;
      && (forall u :: u in URLS_TO_CACHE ==> u in c && net(u) == Delivered(c[u]))
      && (forall u :: u in c <==> u in URLS_TO_CACHE || u in existing)
      && (forall u :: u in c && u !in URLS_TO_CACHE ==> c[u] == existing[u])
  {
  }

  /** What an install event leaves behind. */
  datatype InstallStep = InstallStep(storage: Storage, effects: seq<SwEffect>)

  /**
   * The install handler: open the current cache (creating it), add the whole manifest in
   * one `addAll`, and call `skipWaiting` only when that succeeded; a failure is caught and
   * logged, and the cache keeps what it held (empty if it was just created).
   */
  function Install(st: Storage, net: Network): (r: InstallStep)
    requires UniqueNames(st)
    ensures UniqueNames(r.storage)
    ensures CACHE_NAME in Names(r.storage)
    ensures forall n :: n != CACHE_NAME ==> Find(r.storage, n) == Find(st, n)
    ensures SkipWaiting in r.effects <==> ShellReachable(net)
    ensures ShellReachable(net) ==>
      && r.effects == [SkipWaiting]
      && var c := Find(r.storage, CACHE_NAME).value;
      && (forall u :: u in URLS_TO_CACHE ==> u in c && net(u) == Delivered(c[u]))
      && (forall u :: u in c <==> u in URLS_TO_CACHE || u in Find(st, CACHE_NAME).GetOr(map[]))
      && (forall u :: u in c && u !in URLS_TO_CACHE ==> c[u] == Find(st, CACHE_NAME).value[u])
    ensures !ShellReachable(net) ==>
      && r.effects == [InstallErrorLogged]
      && Find(r.storage, CACHE_NAME) == Some(Find(st, CACHE_NAME).GetOr(map[]))
  {
    var created := Open(st, CACHE_NAME);
    var existing := Find(created, CACHE_NAME).value;
    match FetchAll(URLS_TO_CACHE, net)
    case Some(fetched) =>
      AddAllContents(existing, fetched, net);
      InstallStep(Put(created, CACHE_NAME, existing + fetched), [SkipWaiting])
    case None =>
      InstallStep(created, [InstallErrorLogged])
  }

  /** The names activate deletes: every name other than CACHE_NAME, in listing order. */
  function StaleNames(names: seq<string>): (r: seq<string>)
    ensures forall n :: n in r <==> n in names && n != CACHE_NAME
  {
    if names == [] then []
    else if names[0] != CACHE_NAME then [names[0]] + StaleNames(names[1..])
    else StaleNames(names[1..])
  }

  /** Deletes each of `names` in turn. */
  function DeleteAll(st: Storage, names: seq<string>): (r: Storage)
    ensures UniqueNames(st) ==> UniqueNames(r)
    ensures forall n :: n in Names(r) <==> n in Names(st) && n !in names
    ensures forall n :: n !in names ==> Find(r, n) == Find(st, n)
    decreases names
  {
    if names == [] then st else DeleteAll(Delete(st, names[0]), names[1..])
  }

  /** Storage whose names are distinct and all CACHE_NAME holds at most one cache. */
  lemma SingleGeneration(st: Storage)
    requires UniqueNames(st)
    requires forall n :: n in Names(st) ==> n == CACHE_NAME
    ensures |st| <= 1
  {
    if |st| > 1 {
      FirstTwoNames(Names(st));
      assert false;
    }
  }

  /** The first two elements of a list with at least two elements are among its elements. */
  lemma FirstTwoNames(names: seq<string>)
    ensures |names| > 1 ==> names[0] in names && names[1] in names
  {
  }

  /** What an activate event leaves behind. */
  datatype ActivateStep = ActivateStep(storage: Storage, effects: seq<SwEffect>)

  /**
   * The activate handler: delete every cache whose name differs from CACHE_NAME, then,
   * once all deletions are done, claim the clients.
   */
  function Activate(st: Storage): (r: ActivateStep)
    ensures forall n :: DeleteCache(n) in r.effects <==> n in Names(st) && n != CACHE_NAME
    ensures forall n :: n in Names(r.storage) ==> n == CACHE_NAME
    ensures Find(r.storage, CACHE_NAME) == Find(st, CACHE_NAME)
    ensures UniqueNames(st) ==> |r.storage| <= 1
    ensures |r.effects| > 0 && r.effects[|r.effects| - 1] == ClaimClients
    ensures forall i :: 0 <= i < |r.effects| - 1 ==> r.effects[i].DeleteCache?
  {
    var stale := StaleNames(Names(st));
    var deletes := seq(|stale|, i requires 0 <= i < |stale| => DeleteCache(stale[i]));
    assert forall n :: DeleteCache(n) in deletes <==> n in stale by {
      forall n ensures DeleteCache(n) in deletes <==> n in stale {
        if n in stale {
          var i :| 0 <= i < |stale| && stale[i] == n;
          assert deletes[i] == DeleteCache(n);
        }
      }
    }
    var kept := DeleteAll(st, stale);
    assert UniqueNames(st) ==> |kept| <= 1 by {
      if UniqueNames(st) { SingleGeneration(kept); }
    }
    ActivateStep(kept, deletes + [ClaimClients])
  }

  /** Activate never deletes the current generation. */
  lemma ActivateKeepsCurrent(st: Storage)
    ensures DeleteCache(CACHE_NAME) !in Activate(st).effects
    ensures CACHE_NAME in Names(st) ==> CACHE_NAME in Names(Activate(st).storage)
  {
  }

  /**
   * Activate is idempotent: after one run only the current generation can remain, so a
   * second run deletes nothing, changes no cache, and only claims the clients.
   */
  lemma ActivateIdempotent(st: Storage)
    ensures Activate(Activate(st).storage).effects == [ClaimClients]
    ensures Activate(Activate(st).storage).storage == Activate(st).storage
  {
  }
}

=== FILE: wrappers.dfy ===
/** Optional values shared by every module of the model. */
module Wrappers {

  /** A value that may be absent: JavaScript's `null`/`undefined` slot, or a lookup miss. */
  datatype Option<+T> = None | Some(value: T) {

    /** Returns the value held in Some, or `default` when None. */
    function GetOr(default: T): T {
      match this
      case Some(v) => v
      case None => default
    }
  }
}
